=== FILE: README.md ===
# smnalex/base: data source, middleware chain, header wrapper and source registry in Dafny

This project models the request path of the `base` Go library:

- **`Source`** (source/source.go). A named, tagged data source bound to an HTTP endpoint. Its request function `SF` is a GET of that endpoint through the client captured at construction. `Get` runs `SF` under a deadline of at most five seconds. On a failure, `Get` reports once to the source's logger and once to its counter.
- **The middleware chain** (mware/mware.go). An append-only list of handler wrappers. `Run` folds them around a handler so that the first one registered is outermost.
- **`SetHeaders`** (handler/handler.go). A wrapper that sets four CORS and content-type headers and then calls the inner handler once.
- **`Service`** (service/service.go). A registry that looks up sources by name.

The model is functional. A `Source` is an immutable record, and the configuration calls (`SetAuth`, `SetOptions` and the four options) are pure field updates. The HTTP exchange is an abstract `Exchange` value:

- the request could not be built;
- `Client.Do` failed; or
- a response arrived with a status, the body bytes and an optional read error.

The logger and the counter are not called. Their calls are recorded as `Event`s in a trace. `Get` takes the reply `SF` produced as a parameter. `Fetch` connects `Get` to the source's own request function. Handlers are terms: `DefaultServeMux`, an opaque terminal handler, a converted handler function, or `Wrapped(wrapper, inner)`. Time is in nanoseconds, the unit of Go's `time.Duration`.

Modules:

- `Wrappers` — `Option`, which stands for Go's nil.
- `Decimal` — `%d` rendering, plus a parser used as its inverse.
- `Source`, `Mware`, `Handler`, `Service` — one module per Go package.

### Behaviour worth knowing

- **No URL parsing at construction.** `NewSource` stores the endpoint verbatim. A malformed endpoint surfaces only at call time, as the request-construction error of `http.NewRequest`.
- **No request template.** There are no headers, no request body and no execute-function option. `Username` and `Password` are stored but never sent (`Source.SetAuthUnused`).
- **Only status 200 succeeds.** Any other status, 2xx included, gives `Invalid request <status>`.
- **The body is closed only on the 200 path.** A non-200 response body is neither read nor closed.
- **`Get` logs and counts on every failure.** A fresh source has a nil logger and a nil counter, so its first failure panics (`Source.NewSourceFailurePanics`).
- **`SetClient` does not rebind `SF`.** `SF` keeps the client captured by `NewSource`, so a client installed later is stored but never used (`Source.SetClientDoesNotRebind`).

## Model

| member | source | states |
|---|---|---|
| `Source.NewSource` | source/source.go:78-96 | name, tag and endpoint stored verbatim; empty credentials; nil logger, counter and tracer; client has the 5 s timeout and 100 idle connections per host; `SF` is bound to that same client and the endpoint |
| `Source.DefaultClient` | source/source.go:89-97 | the package's client has a 5 s timeout and a transport allowing 100 idle connections per host |
| `Source.Fetch` | source/source.go:41-74 | `Get` with the default request function. The request goes out through the captured client and endpoint under the deadline `Get` derived. Only a fully read 200 response yields data, with no error and no `Debug` or `Inc`. Any other outcome returns nil data and the exchange's own error: the build or transport error as is, the status error, or the read error on 200. That error is passed to one `Debug` and followed by one `Inc`, or `Get` panics exactly when the logger or the counter is nil |
| `Source.SetAuth` | source/source.go:100-103 | sets exactly username and password; every other field is unchanged |
| `Source.SetAuthUnused` | source/source.go:56-74 | the stored credentials never reach a request: a source with them fetches exactly as one without |
| `Source.ApplyOption` | source/source.go:114-140 | each option writes only its own field (logger, metrics, tracing, client); `SF` never changes |
| `Source.SetOptions` | source/source.go:108-112 | an empty list leaves the source unchanged; no list of the four package options touches name, tag, endpoint, credentials or `SF` |
| `Source.SetOptionsSnoc` | source/source.go:108-112 | options run left to right: running `ops ++ [op]` is running `ops`, then `op` |
| `Source.SetOptionsConcat` | source/source.go:108-112 | one call with `a ++ b` equals a call with `a` followed by a call with `b` |
| `Source.SetOptionsLastWins` | source/source.go:108-140 | each configurable field ends up with the value of the last option that targets it, or keeps its old value if none does |
| `Source.Deadline` | source/source.go:42 | the derived deadline is the minimum of the caller's deadline (when it has one) and now + 5 s: it never loosens the caller's deadline |
| `Source.Message` | source/source.go:70 | the status error's text is `Invalid request ` followed by a canonical decimal (no leading zero, no `-0`) that reads back as the status, so by `Decimal.CanonicalIsFormat` it is exactly the `%d` text of the status |
| `Source.DefaultSourceRequest` | source/source.go:56-74 | a request-build error or transport error is returned as is; a status other than 200 gives the status error with nil data; 200 gives the body and the read error. Once the request is built, exactly one GET goes to the captured endpoint with the captured client. A transport error or a non-200 status does nothing else, so the body is neither read nor closed. On 200 the body is read once and then closed once, even when the read fails |
| `Source.Get` | source/source.go:41-54 | calls `SF` first, with `q` and the derived deadline; a successful reply is passed through without logging; a failure returns nil data and the same error after `Debug("Failed Request", …)` and then `Inc`; it panics if and only if the reply failed while the logger or the counter is nil |
| `Source.GetObservations` | source/source.go:45-53 | exactly one `SF` call; one `Debug` and one `Inc` on a failure with both collaborators set; none on success |
| `Source.FetchDeadlineBounded` | source/source.go:41-45 | the request runs under the same deadline that `Get` derived, which is at most now + 5 s and at most the caller's deadline |
| `Source.FetchIgnoresQuery` | source/source.go:56-64 | the default request function ignores `q`: the exchange and the outcome are the same for any query |
| `Source.SetClientDoesNotRebind` | source/source.go:78-87 | whatever options are applied after `NewSource`, including `SetClient`, requests go through the default client captured at construction |
| `Source.NewSourceFailurePanics` | source/source.go:45-51 | on a fresh source, a failing `SF` reply makes `Get` panic after the `SF` call and nothing else |
| `Source.MessageIsFormat` | source/source.go:70 | the status error's text is exactly `Invalid request ` followed by the `%d` rendering of the status |
| `Source.FetchBadStatus` | source/source.go:64-70 | a non-200 response on a configured source gives the status error, whose text is exactly `Invalid request ` followed by the `%d` rendering of the status; exactly one `Debug` and one `Inc`; no body read or close |
| `Source.FetchOk` | source/source.go:69-73 | status 200 without a read error returns the body unchanged; no `Debug` or `Inc`; the body is read and then closed |
| `Decimal.ParseFormatInt` | source/source.go:70 | every integer rendered by `%d` parses back as itself |
| `Decimal.FormatIntCanonical` | source/source.go:70 | `%d` writes only canonical texts: an optional minus sign, then digits with no leading zero, and never `-0` |
| `Decimal.CanonicalIsFormat` | source/source.go:70 | a canonical decimal text is the `%d` rendering of the integer it reads as: each integer has exactly one canonical text |
| `Decimal.FormatIntInjective` | source/source.go:70 | distinct statuses render as distinct texts |
| `Mware.New` | mware/mware.go:11-13 | the chain holds the given wrappers in order, and its length is the argument count |
| `Mware.Append` | mware/mware.go:15-17 | the old wrappers are kept as a prefix; the new ones follow in order; the length grows by their count |
| `Mware.WrapFromLastIsNest` | mware/mware.go:24-26 | the loop that wraps from the last wrapper to the first builds `w0(w1(… wn-1(h)))` |
| `Mware.Run` | mware/mware.go:19-28 | a nil handler gives the default mux, whatever is registered; otherwise the result is `w0(w1(… wn-1(h)))`; an empty chain gives `h` itself |
| `Mware.RunLayers` | mware/mware.go:24-27 | the wrappers around the result are exactly the registered ones, outermost first, each once, and the handler inside is unchanged |
| `Mware.RunAppend` | mware/mware.go:15-28 | running a chain after `Append(ws)` is the old chain run around the new wrappers (a handler returned earlier is a value, so it is unaffected by construction) |
| `Mware.RunServeOrder` | mware/mware.go:24-26 | for wrappers that record their entry and exit, a request enters the registered wrappers in registration order, then is served by the handler with any layers of its own, then leaves them in reverse order. If the handler's core is a nil handler function, serving panics there and no wrapper records an exit |
| `Mware.RunServeOrderTerminal` | mware/mware.go:24-26 | around a handler that is not itself wrapped, the request runs the entries in registration order, then that handler, then the exits in reverse. A nil handler function instead ends the entries in a panic |
| `Mware.RunFunc` | mware/mware.go:30-32 | the function is converted to a handler and wrapped by every registered wrapper; an empty chain gives the converted function, even a nil one, and never the default mux |
| `Handler.Set` | handler/handler.go:8-11 | `Header.Set` makes the key's values exactly the one given value and leaves every other key unchanged |
| `Handler.SetHeaders` | handler/handler.go:6-7 | the wrapper adds one layer outside the inner handler and keeps the inner handler |
| `Handler.ServeSetHeaders` | handler/handler.go:6-13 | the inner handler is called exactly once, with the same writer and request. By then the two CORS allow headers hold `*` and `GET, OPTIONS`, the allow-headers header holds `Origin, Content-Type`, and `Content-Type` is exactly `application/json`. All other headers are as before |
| `Handler.SetHeadersInChain` | handler/handler.go:6-13 | registered in a chain, the wrapper sits at its registration depth as exactly `SetHeaders(inner)`, with `inner` the later wrappers around the handler, and the earlier wrappers outside it. This fixes the handler term at that depth only |
| `Handler.CorsHeadersIdempotent` | handler/handler.go:8-11 | setting the headers a second time changes nothing |
| `Handler.CorsHeadersCharacterised` | handler/handler.go:8-11 | the four fixed values plus the unchanged other keys determine the resulting header map completely |
| `Service.NewService` | service/service.go:20-22 | name and tag are stored; the source table is empty; `Logging` is left at the zero `log.Logger` (written `None`) |
| `Service.RegisterSources` | service/service.go:31-33 | the table becomes exactly the given map; nothing else changes |
| `Service.GetSource` | service/service.go:36-40 | returns the entry registered under the name, or nil when there is none |
| `Service.GetAfterRegister` | service/service.go:31-40 | after a registration, lookups answer from the new map alone; earlier entries are not merged in |
| `Service.RegisterReplaces` | service/service.go:31-33 | a second registration discards the first entirely |
| `Service.NewServiceHasNoSources` | service/service.go:20-40 | every lookup is nil before any registration |

## Left out

- net/http is abstract. `http.NewRequest`, `Client.Do`, the transport's connection pooling and `ioutil.ReadAll` are foreign calls and I/O. They appear only as an `Exchange` outcome and as trace events.
- Context timers and cancellation are not modelled. Only the deadline arithmetic of `context.WithTimeout` is kept: the minimum of the parent deadline and now + 5 s. The deferred `cancel` has no observable effect in the model.
- The client's own 5 s timeout is stored as a constant but not enforced. Timeouts are part of the abstract exchange outcome.
- The mutex in service/service.go is concurrency, not behaviour, and is not modelled.
- log/log.go is not modelled. It does JSON marshalling and writes to an `io.Writer`. A logger is an identity, and its `Debug` calls are recorded in the trace.
- metrics/metrics.go is not modelled. It declares an interface with no behaviour that `Source` does not use. The prometheus counter is an identity, and its `Inc` calls are recorded in the trace.
- `Service.Logger()` is not modelled. It calls itself unconditionally, so it never returns; the `Logging` field was evidently meant to be returned. `Service` keeps the `Logging` field. It is a standard-library `log.Logger` held by value, so it is never nil. `NewService` leaves it at its zero value, which the model writes as `None`.
- The `Sourcer` interface is not modelled separately. It only declares `Get`, which is modelled on `Source`.
- A caller may assign its own function to the exported `SF` field. This is not modelled as an option. `Source.Get` takes any `SF` reply, so it covers such functions. `Source.Fetch` covers only the default one.
- Nil receivers and nil option values are not modelled. A method on a nil `*Source` or `*mware` panics once it reads or writes a field, with two exceptions. `Run(nil)` on a nil `*mware` returns `http.DefaultServeMux` without reading the receiver (mware/mware.go:19-22). `SetOptions()` with no options on a nil `*Source` loops zero times (source/source.go:108-112). A nil `SourceOption` passed to `SetOptions` panics when it is called. Options are a datatype with no nil value.
- The `Tracing` field is stored by `SetTracer` but never read by the code, and the model does the same.
- Header-key canonicalisation by `Header.Set` is not modelled. The four keys the wrapper uses are already canonical.
- Integer widths are not modelled. The status is an unbounded `int`, and now + 5 s is computed without the 64-bit bounds of `time.Time`. Neither matters for realistic values.
- Bytes that `SF` returns together with an error are not visible in the result. `Source.Get` discards them, as the code does: it returns nil data on every failure.
- Go's reference sharing is not modelled: maps, `*source.Source` and `*http.Client` are values here. In Go, `RegisterSources` keeps the caller's map itself, so a key the caller adds later, or a source configured after it was registered, is visible through `GetSource`. The model keeps a snapshot instead. Likewise, the `Client` field and `SF` share one `*http.Client` until `SetClient` is called, so changing a field of `s.Client` in place also changes the client `SF` uses. Only replacing the field with `SetClient` is modelled.
- Options written by callers are not modelled. `SourceOption` is the exported function type `func(*Source)`, so a caller's own option can change any field, including `Endpoint`, the credentials, `Client` and `SF`. The model has only the four options the package provides, and the frame guarantees of `Source.SetOptions` and `Source.SetOptionsLastWins` hold for those four.
- Wrappers that do not wrap are not modelled. A mware `handler` is any `func(http.Handler) http.Handler`: it may return nil, or a handler that never calls its argument. A wrapper here always adds one layer around its argument, so `Mware.RunLayers` and `Mware.RunServeOrder` describe wrappers that really wrap.
- Wrappers that recover from a panic, or record their exit in a deferred call, are not modelled. `Mware.ServeLogged` records an exit only after a normal return from the wrapped handler, so a panic at the core unwinds every layer without an exit.
- A nil inner handler for `SetHeaders` is not modelled. `SetHeaders(nil)` returns a handler that panics on its inner call when it is served. In the model the inner handler is always a handler term, never nil.

=== FILE: decimal.dfy ===
/**
  Decimal rendering of integers, as Go's `fmt` verb `%d` writes them, together
  with a parser that inverts it. The parser is the reference against which the
  rendering is checked: every rendered integer reads back as itself.
 */
module Decimal {
  import opened Wrappers

  predicate IsDigit(c: char) {
    '0' <= c <= '9'
  }

  predicate AllDigits(s: string) {
    forall i :: 0 <= i < |s| ==> IsDigit(s[i])
  }

  function DigitChar(d: nat): (c: char)
    requires d < 10
    ensures IsDigit(c)
    ensures c as int - '0' as int == d
  {
    (('0' as int) + d) as char
  }

  function DigitValue(c: char): (d: nat)
    requires IsDigit(c)
    ensures d < 10
  {
    c as int - '0' as int
  }

  /** The digits of `n`, most significant first, with no leading zero. */
  function FormatNat(n: nat): (s: string)
    ensures |s| >= 1
    ensures AllDigits(s)
    ensures |s| > 1 ==> s[0] != '0'
    ensures n > 0 ==> s[0] != '0'
  {
    if n < 10 then [DigitChar(n)] else FormatNat(n / 10) + [DigitChar(n % 10)]
  }

  /** A non-empty run of digits with no leading zero (so "0" is the only form of zero). */
  predicate CanonicalNat(s: string) {
    |s| >= 1 && AllDigits(s) && (|s| > 1 ==> s[0] != '0')
  }

  /** The only forms `%d` writes: a canonical natural, or a minus sign before a non-zero one. */
  predicate Canonical(s: string) {
    || CanonicalNat(s)
    || (|s| >= 2 && s[0] == '-' && CanonicalNat(s[1..]) && s[1] != '0')
  }

  /** `%d`: a minus sign for negative values, then the digits of the magnitude. */
  function FormatInt(i: int): string {
    if i < 0 then "-" + FormatNat(-i) else FormatNat(i)
  }

  /** `%d` writes only canonical texts: no leading zero and no `-0`. */
  lemma FormatIntCanonical(i: int)
    ensures Canonical(FormatInt(i))
  {
    if i < 0 {
      var digits := FormatNat(-i);
      assert FormatInt(i) == "-" + digits;
      assert ("-" + digits)[1..] == digits;
    }
  }

  /** The value of a string of decimal digits (the empty string reads as 0). */
  function ParseNat(s: string): nat
    requires AllDigits(s)
  {
    if |s| == 0 then 0 else ParseNat(s[..|s| - 1]) * 10 + DigitValue(s[|s| - 1])
  }

  /** Reads an optionally signed decimal integer; `None` when `s` is not one. */
  function ParseInt(s: string): Option<int> {
    if 1 < |s| && s[0] == '-' && AllDigits(s[1..]) then Some(0 - ParseNat(s[1..]) as int)
    else if 0 < |s| && AllDigits(s) then Some(ParseNat(s))
    else None
  }

  lemma {:induction false} ParseFormatNat(n: nat)
    ensures ParseNat(FormatNat(n)) == n
  {
    if n >= 10 {
      var s := FormatNat(n);
      var c := DigitChar(n % 10);
      assert s == FormatNat(n / 10) + [c];
      assert s[..|s| - 1] == FormatNat(n / 10);
      ParseFormatNat(n / 10);
    }
  }

  /** A minus sign before a run of digits reads as the negated value of the digits. */
  lemma ParseNegative(digits: string)
    requires |digits| >= 1 && AllDigits(digits)
    ensures ParseInt("-" + digits) == Some(0 - ParseNat(digits) as int)
  {
    assert ("-" + digits)[1..] == digits;
  }

  /** Every integer rendered by `%d` reads back as itself. */
  lemma {:induction false} ParseFormatInt(i: int)
    ensures ParseInt(FormatInt(i)) == Some(i)
  {
    if i < 0 {
      ParseNegative(FormatNat(-i));
      ParseFormatNat(-i);
    } else {
      ParseFormatNat(i);
    }
  }

  /** A run of digits whose first digit is not zero has a non-zero value. */
  lemma {:induction false} ParseNatPositive(s: string)
    requires |s| >= 1 && AllDigits(s) && s[0] != '0'
    ensures ParseNat(s) >= 1
    decreases |s|
  {
    if |s| > 1 {
      var init := s[..|s| - 1];
      assert init[0] == s[0];
      ParseNatPositive(init);
    }
  }

  /** A canonical natural is the rendering of its own value. */
  lemma {:induction false} FormatParseNat(s: string)
    requires CanonicalNat(s)
    ensures FormatNat(ParseNat(s)) == s
    decreases |s|
  {
    if |s| > 1 {
      var init, c := s[..|s| - 1], s[|s| - 1];
      assert init[0] == s[0];
      ParseNatPositive(init);
      FormatParseNat(init);
      var n := ParseNat(s);
      assert n == ParseNat(init) * 10 + DigitValue(c);
      assert n / 10 == ParseNat(init) && n % 10 == DigitValue(c);
      assert DigitChar(DigitValue(c)) == c;
      assert init + [c] == s;
    } else {
      assert DigitChar(DigitValue(s[0])) == s[0];
    }
  }

  /**
    Each integer has exactly one canonical text: a canonical string is the
    `%d` rendering of the integer it reads as.
   */
  lemma CanonicalIsFormat(s: string)
    requires Canonical(s)
    ensures ParseInt(s).Some? && FormatInt(ParseInt(s).value) == s
  {
    if CanonicalNat(s) {
      assert s[0] != '-';
      FormatParseNat(s);
    } else {
      var digits := s[1..];
      assert digits[0] == s[1];
      ParseNatPositive(digits);
      FormatParseNat(digits);
      assert "-" + digits == s;
    }
  }

  /** Distinct integers render differently. */
  lemma FormatIntInjective(i: int, j: int)
    requires FormatInt(i) == FormatInt(j)
    ensures i == j
  {
    ParseFormatInt(i);
    ParseFormatInt(j);
  }
}

=== FILE: handler.dfy ===
/**
  The `SetHeaders` middleware of handler/handler.go: it sets four response
  headers on the writer and then hands the request to the wrapped handler.

  A response writer is reduced to its identity and its header map; serving a
  request through the wrapper yields the list of calls it makes on the inner
  handler.
 */
module Handler {
  import Mware
  import Wrappers

  /** `http.Header`: a header name mapped to its values. */
  type Header = map<string, seq<string>>

  datatype Writer = Writer(id: nat, header: Header)

  datatype Request = Request(id: nat)

  /** One call `inner.ServeHTTP(w, r)`, with the writer's header as it stood at the call. */
  datatype Invocation = Invocation(handler: Mware.Handler, w: Writer, r: Request)

  const AllowOrigin: string := "Access-Control-Allow-Origin"
  const AllowMethods: string := "Access-Control-Allow-Methods"
  const AllowHeaders: string := "Access-Control-Allow-Headers"
  const ContentType: string := "Content-Type"

  /** The four headers the wrapper owns. */
  const CorsKeys: set<string> := {AllowOrigin, AllowMethods, AllowHeaders, ContentType}

  /** The wrapper as a chain element. */
  const SetHeadersWrapper: Mware.Wrapper := Mware.Wrapper("SetHeaders")

  /**
    `Header.Set`: the key's values become exactly `[value]`, every other key is
    untouched. (The four keys used here are already in canonical form, so
    canonicalisation is the identity on them.)
   */
  function Set(h: Header, key: string, value: string): (r: Header)
    ensures key in r && r[key] == [value]
    ensures r.Keys == h.Keys + {key}
    ensures forall k :: k in h && k != key ==> r[k] == h[k]
  {
    h[key := [value]]
  }

  /** The header map after the wrapper's four `Set` calls. */
  function CorsHeaders(h: Header): Header {
    var h1 := Set(h, AllowOrigin, "*");
    var h2 := Set(h1, AllowMethods, "GET, OPTIONS");
    var h3 := Set(h2, AllowHeaders, "Origin, Content-Type");
    Set(h3, ContentType, "application/json")
  }

  /** The wrapper's four headers each hold exactly their one value. */
  predicate HasCors(h: Header) {
    && AllowOrigin in h && h[AllowOrigin] == ["*"]
    && AllowMethods in h && h[AllowMethods] == ["GET, OPTIONS"]
    && AllowHeaders in h && h[AllowHeaders] == ["Origin, Content-Type"]
    && ContentType in h && h[ContentType] == ["application/json"]
  }

  /** `after` differs from `before` only on the wrapper's four keys. */
  predicate SameElsewhere(before: Header, after: Header) {
    && after.Keys == before.Keys + CorsKeys
    && forall k :: k in before && k !in CorsKeys ==> after[k] == before[k]
  }

  /** `SetHeaders(h)`: the handler `h` wrapped by this middleware. */
  function SetHeaders(inner: Mware.Handler): (r: Mware.Handler)
    ensures Mware.Layers(r) == [SetHeadersWrapper] + Mware.Layers(inner)
    ensures Mware.Core(r) == Mware.Core(inner)
  {
    Mware.Wrapped(SetHeadersWrapper, inner)
  }

  /**
    Serving a request through the wrapper: the inner handler is called exactly
    once, on the same writer and request, and by then the four headers are set
    (replacing any earlier values) while every other header is as it was.
   */
  function ServeSetHeaders(inner: Mware.Handler, w: Writer, r: Request): (calls: seq<Invocation>)
    ensures |calls| == 1
    ensures calls[0].handler == inner && calls[0].w.id == w.id && calls[0].r == r
    ensures HasCors(calls[0].w.header)
    ensures SameElsewhere(w.header, calls[0].w.header)
  {
    [Invocation(inner, w.(header := CorsHeaders(w.header)), r)]
  }

  /**
    Where `SetHeaders` is registered in a chain, `Run` places exactly the term
    `SetHeaders(inner)` at that depth, with `inner` the later wrappers around
    the handler. This is a statement about the handler term only; what the
    earlier wrappers do to a request before it reaches that depth depends on
    those wrappers and is not modelled.
   */
  lemma SetHeadersInChain(pre: seq<Mware.Wrapper>, post: seq<Mware.Wrapper>, h: Mware.Handler)
    ensures Mware.Run(Mware.New(pre + [SetHeadersWrapper] + post), Wrappers.Some(h))
         == Mware.Run(Mware.New(pre), Wrappers.Some(SetHeaders(Mware.Run(Mware.New(post), Wrappers.Some(h)))))
  {
    Mware.NestConcat(pre, [SetHeadersWrapper] + post, h);
    assert pre + [SetHeadersWrapper] + post == pre + ([SetHeadersWrapper] + post);
    assert ([SetHeadersWrapper] + post)[1..] == post;
  }

  /** Serving twice through the wrapper leaves the headers as serving once does. */
  lemma CorsHeadersIdempotent(h: Header)
    ensures CorsHeaders(CorsHeaders(h)) == CorsHeaders(h)
  {
  }

  /**
    The headers the wrapper leaves are determined by the ones it found: the
    four keys are fixed, and any other key keeps its old values.
   */
  lemma CorsHeadersCharacterised(h: Header, h': Header)
    requires HasCors(h') && SameElsewhere(h, h')
    ensures h' == CorsHeaders(h)
  {
    var c := CorsHeaders(h);
    assert h'.Keys == c.Keys;
    forall k | k in h'
      ensures h'[k] == c[k]
    {
      if k !in CorsKeys {
        assert k in h;
      }
    }
  }
}

=== FILE: mware.dfy ===
/**
  The middleware chain of mware/mware.go: an append-only list of wrappers and
  `Run`, which folds them around a handler so that the first one registered
  ends up outermost.

  Handlers are terms: the package-wide default mux, an opaque terminal
  handler, a converted handler function (possibly a nil one), or a handler
  wrapped by a named wrapper.
 */
module Mware {
  import opened Wrappers

  /** A `func(http.Handler) http.Handler`, known by name. */
  datatype Wrapper = Wrapper(name: string)

  datatype Handler =
    | DefaultServeMux
    | Terminal(id: nat)
    | HandlerFunc(f: Option<nat>)
    | Wrapped(wrapper: Wrapper, inner: Handler)

  /** The `mware` struct: its wrappers in registration order. */
  datatype Chain = Chain(handlers: seq<Wrapper>)

  /** `New`: a chain holding its own copy of the given wrappers, in order. */
  function New(ws: seq<Wrapper>): (c: Chain)
    ensures |c.handlers| == |ws|
    ensures forall i :: 0 <= i < |ws| ==> c.handlers[i] == ws[i]
  {
    Chain(ws)
  }

  /** `Append`: the given wrappers go after the registered ones, in order. */
  function Append(c: Chain, ws: seq<Wrapper>): (r: Chain)
    ensures |r.handlers| == |c.handlers| + |ws|
    ensures r.handlers[..|c.handlers|] == c.handlers
    ensures r.handlers[|c.handlers|..] == ws
  {
    Chain(c.handlers + ws)
  }

  /** The intended composition `ws[0](ws[1](… ws[n-1](h)))`, outermost first. */
  function Nest(ws: seq<Wrapper>, h: Handler): Handler
    decreases |ws|
  {
    if |ws| == 0 then h else Wrapped(ws[0], Nest(ws[1..], h))
  }

  /** The loop of `Run`: step `i` wraps the accumulated handler with wrapper `n-1-i`. */
  function WrapFromLast(ws: seq<Wrapper>, h: Handler): Handler
    decreases |ws|
  {
    if |ws| == 0 then h else WrapFromLast(ws[..|ws| - 1], Wrapped(ws[|ws| - 1], h))
  }

  lemma {:induction false} NestSnoc(ws: seq<Wrapper>, w: Wrapper, h: Handler)
    ensures Nest(ws + [w], h) == Nest(ws, Wrapped(w, h))
    decreases |ws|
  {
    if |ws| > 0 {
      assert (ws + [w])[1..] == ws[1..] + [w];
      NestSnoc(ws[1..], w, h);
    }
  }

  /** The loop, which wraps from the last wrapper inwards-out, builds the intended nesting. */
  lemma {:induction false} WrapFromLastIsNest(ws: seq<Wrapper>, h: Handler)
    ensures WrapFromLast(ws, h) == Nest(ws, h)
    decreases |ws|
  {
    if |ws| > 0 {
      var init, last := ws[..|ws| - 1], ws[|ws| - 1];
      WrapFromLastIsNest(init, Wrapped(last, h));
      NestSnoc(init, last, h);
      assert init + [last] == ws;
    }
  }

  /**
    `Run`: a nil handler gives the default mux and no wrapper is applied;
    otherwise every registered wrapper is applied once, the first registered
    outermost, so an empty chain gives the handler itself.
   */
  function Run(c: Chain, h: Option<Handler>): (r: Handler)
    ensures h.None? ==> r == DefaultServeMux
    ensures h.Some? ==> r == Nest(c.handlers, h.value)
    ensures h.Some? && c.handlers == [] ==> r == h.value
  {
    match h
    case None => DefaultServeMux
    case Some(inner) =>
      WrapFromLastIsNest(c.handlers, inner);
      WrapFromLast(c.handlers, inner)
  }

  /** The wrappers around a handler, outermost first. */
  function Layers(h: Handler): seq<Wrapper> {
    match h
    case Wrapped(w, inner) => [w] + Layers(inner)
    case _ => []
  }

  /** The handler under all the wrappers. */
  function Core(h: Handler): Handler {
    match h
    case Wrapped(_, inner) => Core(inner)
    case _ => h
  }

  /**
    `RunFunc`: the function is converted to a handler first. Even a nil
    function converts to a non-nil handler, so the default mux never comes out.
   */
  function RunFunc(c: Chain, f: Option<nat>): (r: Handler)
    ensures Layers(r) == c.handlers
    ensures Core(r) == HandlerFunc(f)
    ensures c.handlers == [] ==> r == HandlerFunc(f)
  {
    RunLayers(c, HandlerFunc(f));
    Run(c, Some(HandlerFunc(f)))
  }

  /** Each registered wrapper appears exactly once around the handler, in registration order. */
  lemma {:induction false} NestLayers(ws: seq<Wrapper>, h: Handler)
    ensures Layers(Nest(ws, h)) == ws + Layers(h)
    ensures Core(Nest(ws, h)) == Core(h)
    decreases |ws|
  {
    if |ws| > 0 {
      NestLayers(ws[1..], h);
      assert [ws[0]] + (ws[1..] + Layers(h)) == ws + Layers(h);
    }
  }

  lemma RunLayers(c: Chain, h: Handler)
    ensures Layers(Run(c, Some(h))) == c.handlers + Layers(h)
    ensures Core(Run(c, Some(h))) == Core(h)
  {
    NestLayers(c.handlers, h);
  }

  lemma {:induction false} NestConcat(a: seq<Wrapper>, b: seq<Wrapper>, h: Handler)
    ensures Nest(a + b, h) == Nest(a, Nest(b, h))
    decreases |a|
  {
    if |a| > 0 {
      assert (a + b)[1..] == a[1..] + b;
      NestConcat(a[1..], b, h);
    } else {
      assert a + b == b;
    }
  }

  /**
    Appending wrappers puts them inside the ones already registered: running
    the longer chain is running the old chain around the new wrappers. A
    handler returned before the `Append` is the old chain's and is unaffected.
   */
  lemma RunAppend(c: Chain, ws: seq<Wrapper>, h: Handler)
    ensures Run(Append(c, ws), Some(h)) == Run(c, Some(Run(New(ws), Some(h))))
  {
    NestConcat(c.handlers, ws, h);
  }

  /** One step of serving a request, for wrappers that record their entry and exit. */
  datatype Step = Enter(w: Wrapper) | Serve(h: Handler) | Exit(w: Wrapper) | Panic

  /**
    Serving reaches a nil handler function at the core: `http.HandlerFunc(nil)`
    is a non-nil handler whose `ServeHTTP` calls the nil function and panics.
   */
  predicate Panics(h: Handler) {
    Core(h) == HandlerFunc(None)
  }

  /**
    The steps of serving `h` when every wrapper records entering and, on a
    normal return from the handler it wraps, leaving. A panic at the core
    unwinds through every wrapper without an exit step.
   */
  function ServeLogged(h: Handler): seq<Step> {
    match h
    case Wrapped(w, inner) => [Enter(w)] + ServeLogged(inner) + (if Panics(inner) then [] else [Exit(w)])
    case HandlerFunc(None) => [Panic]
    case _ => [Serve(h)]
  }

  function Enters(ws: seq<Wrapper>): (r: seq<Step>)
    ensures |r| == |ws|
    ensures forall i :: 0 <= i < |ws| ==> r[i] == Enter(ws[i])
  {
    if |ws| == 0 then [] else [Enter(ws[0])] + Enters(ws[1..])
  }

  function ExitsReversed(ws: seq<Wrapper>): (r: seq<Step>)
    ensures |r| == |ws|
    ensures forall i :: 0 <= i < |ws| ==> r[i] == Exit(ws[|ws| - 1 - i])
  {
    if |ws| == 0 then [] else ExitsReversed(ws[1..]) + [Exit(ws[0])]
  }

  /**
    With wrappers `[A, B]` around a handler `H`, a request runs A-entry,
    B-entry, then `H` (with whatever layers it has of its own), B-exit, A-exit:
    entries in registration order, exits reversed. When `H` ends in a nil
    handler function, the panic leaves no exit step at all.
   */
  lemma RunServeOrder(c: Chain, h: Handler)
    ensures !Panics(h) ==>
              ServeLogged(Run(c, Some(h))) == Enters(c.handlers) + ServeLogged(h) + ExitsReversed(c.handlers)
    ensures Panics(h) ==> ServeLogged(Run(c, Some(h))) == Enters(c.handlers) + ServeLogged(h)
  {
    NestServeOrder(c.handlers, h);
  }

  /**
    Around an unwrapped handler: the handler is served between the entries and
    the exits, or, for a nil handler function, the entries end in a panic.
   */
  lemma RunServeOrderTerminal(c: Chain, h: Handler)
    requires !h.Wrapped?
    ensures h != HandlerFunc(None) ==>
              ServeLogged(Run(c, Some(h))) == Enters(c.handlers) + [Serve(h)] + ExitsReversed(c.handlers)
    ensures h == HandlerFunc(None) ==> ServeLogged(Run(c, Some(h))) == Enters(c.handlers) + [Panic]
  {
    RunServeOrder(c, h);
  }

  lemma {:induction false} NestServeOrder(ws: seq<Wrapper>, h: Handler)
    ensures ServeLogged(Nest(ws, h)) == Enters(ws) + ServeLogged(h) + (if Panics(h) then [] else ExitsReversed(ws))
    decreases |ws|
  {
    if |ws| > 0 {
      var w, rest := ws[0], ws[1..];
      NestServeOrder(rest, h);
      NestLayers(rest, h);
      assert Nest(ws, h) == Wrapped(w, Nest(rest, h));
      assert Panics(Nest(rest, h)) == Panics(h);
      assert Enters(ws) == [Enter(w)] + Enters(rest);
      if Panics(h) {
        assert ServeLogged(Nest(ws, h)) == [Enter(w)] + ServeLogged(Nest(rest, h)) + [];
        assert ServeLogged(Nest(rest, h)) == Enters(rest) + ServeLogged(h) + [];
      } else {
        assert ExitsReversed(ws) == ExitsReversed(rest) + [Exit(w)];
        assert ServeLogged(Nest(ws, h)) == [Enter(w)] + ServeLogged(Nest(rest, h)) + [Exit(w)];
        assert ServeLogged(Nest(rest, h)) == Enters(rest) + ServeLogged(h) + ExitsReversed(rest);
      }
    }
  }
}

=== FILE: service.dfy ===
/**
  The service registry of service/service.go: a named, tagged service holding
  a table of data sources by name. The table's lock only serialises access and
  is not modelled.
 */
module Service {
  import opened Wrappers
  import Source

  /**
    A standard-library `log.Logger` held by value. The zero value that
    `NewService` leaves in place is modelled as `None`.
   */
  datatype StdLogger = StdLogger(id: nat)

  /** The table maps a name to a `*source.Source`, which may itself be nil. */
  datatype Service = Service(
    name: string,
    tag: string,
    sources: map<string, Option<Source.Source>>,
    logging: Option<StdLogger>)

  /** `NewService`: only the name and tag are set; the table is empty and `Logging` keeps its zero value. */
  function NewService(name: string, tag: string): (s: Service)
    ensures s.name == name && s.tag == tag
    ensures |s.sources| == 0
    ensures s.logging.None?   // the zero `log.Logger`
  {
    Service(name, tag, map[], None)
  }

  /** `RegisterSources`: the table becomes `m`; nothing else changes. */
  function RegisterSources(s: Service, m: map<string, Option<Source.Source>>): (r: Service)
    ensures r.sources == m
    ensures r.name == s.name && r.tag == s.tag && r.logging == s.logging
  {
    s.(sources := m)
  }

  /** `GetSource`: the entry under `name`, or nil when there is none. */
  function GetSource(s: Service, name: string): (r: Option<Source.Source>)
    ensures name in s.sources ==> r == s.sources[name]
    ensures name !in s.sources ==> r == None
  {
    if name in s.sources then s.sources[name] else None
  }

  /**
    After a registration, lookups answer from the registered table alone:
    names registered earlier but absent from it are gone.
   */
  lemma GetAfterRegister(s: Service, m: map<string, Option<Source.Source>>, name: string)
    ensures GetSource(RegisterSources(s, m), name) == (if name in m then m[name] else None)
  {
  }

  /** A second registration discards the first entirely. */
  lemma RegisterReplaces(s: Service, m1: map<string, Option<Source.Source>>, m2: map<string, Option<Source.Source>>)
    ensures RegisterSources(RegisterSources(s, m1), m2) == RegisterSources(s, m2)
  {
  }

  /** Before any registration every lookup is nil. */
  lemma NewServiceHasNoSources(name: string, tag: string, n: string)
    ensures GetSource(NewService(name, tag), n) == None
  {
  }
}

=== FILE: source.dfy ===
/**
  The data source of source/source.go: a `Source` record, its configuration
  functions, the default request function `SF` is bound to at construction, and
  `Get`, which runs `SF` under a bounded deadline and reports failures to a
  logger and a counter.

  Everything the Go code hands to net/http, to the logger or to the prometheus
  counter is abstract here. `Get` receives the reply `SF` produced as a
  parameter and returns, beside its result, the trace of calls it made; the
  default request function receives the abstract outcome of the HTTP exchange
  and returns the trace of calls it made on the client and the response body.
 */
module Source {
  import opened Wrappers
  import Decimal

  type Bytes = seq<bv8>

  /** `url.Values`: a query parameter name mapped to its values. */
  type UrlValues = map<string, seq<string>>

  /** Durations and instants are in nanoseconds, the unit of Go's `time.Duration`. */
  const Second: int := 1_000_000_000

  /** The ceiling `Get` puts on every call, and the default client's timeout. */
  const RequestTimeout: int := 5 * Second

  const DefaultMaxIdleConnsPerHost: int := 100

  /** `http.StatusOK`, the only status the default request function accepts. */
  const StatusOK: int := 200

  const FailedRequestMsg: string := "Failed Request"

  datatype Transport = Transport(maxIdleConnsPerHost: int)

  /** An `*http.Client`, compared by value as `reflect.DeepEqual` does. */
  datatype Client = Client(timeout: int, transport: Transport)

  /** A `log.Logger`; its calls are recorded, never performed. */
  datatype Logger = Logger(id: nat)

  /** A `prometheus.Counter`, identified; its increments are recorded in traces. */
  datatype Counter = Counter(id: nat)

  /**
    The request function `SF`. The only one the package builds is the default
    one, which captures the client and endpoint it was given at construction.
   */
  datatype SourceFunc = DefaultRequest(client: Client, endpoint: string)

  datatype Source = Source(
    name: string,
    tag: string,
    endpoint: string,
    username: string,
    password: string,
    client: Option<Client>,
    logger: Option<Logger>,
    metrics: Option<Counter>,
    tracing: Option<Logger>,
    sf: SourceFunc)

  /** An error value: one passed through from net/http or the body reader, or the status error. */
  datatype Error = Failure(cause: string) | InvalidStatus(status: int)

  /** A caller's `context.Context`, reduced to its optional deadline. */
  datatype Context = Context(deadline: Option<int>)

  /** Go's `([]byte, error)` pair; `data` is `None` for a nil slice. */
  datatype Reply = Reply(data: Option<Bytes>, err: Option<Error>)

  /** The observable calls the source makes on its collaborators. */
  datatype Event =
    | CallSF(q: Option<UrlValues>, deadline: int)
    | Do(client: Client, verb: string, url: string, deadline: int)
    | ReadBody
    | CloseBody
    | Debug(logger: Logger, msg: string, err: Error, deadline: int, q: Option<UrlValues>)
    | Inc(counter: Counter)

  /**
    The abstract outcome of one HTTP exchange: `http.NewRequest` refused the
    request, `Client.Do` failed, or a response arrived whose body reads as
    `body`, possibly cut short by `readErr`.
   */
  datatype Exchange =
    | RequestFailed(err: Error)
    | DoFailed(err: Error)
    | Responded(status: int, body: Bytes, readErr: Option<Error>)

  /** What running the request function produced, and what it did on the way. */
  datatype SFRun = SFRun(reply: Reply, effects: seq<Event>)

  /** `Get` either returns or panics (a method call on a nil logger or counter). */
  datatype Outcome = Returned(reply: Reply) | Panicked

  datatype GetResult = GetResult(outcome: Outcome, trace: seq<Event>)

  /** What the default request function did, and what `Get` did with its reply. */
  datatype FetchResult = FetchResult(exchange: seq<Event>, get: GetResult)

  /** The text of an error, as `Error()` returns it. */
  function Message(e: Error): (m: string)
    ensures e.InvalidStatus? ==>
              && |m| >= |InvalidRequestPrefix|
              && m[..|InvalidRequestPrefix|] == InvalidRequestPrefix
              && Decimal.Canonical(m[|InvalidRequestPrefix|..])
              && Decimal.ParseInt(m[|InvalidRequestPrefix|..]) == Some(e.status)
  {
    match e
    case Failure(cause) => cause
    case InvalidStatus(status) =>
      var digits := Decimal.FormatInt(status);
      Decimal.ParseFormatInt(status);
      Decimal.FormatIntCanonical(status);
      assert (InvalidRequestPrefix + digits)[|InvalidRequestPrefix|..] == digits;
      InvalidRequestPrefix + digits
  }

  const InvalidRequestPrefix: string := "Invalid request "

  /** `defaultClient()`: a fresh client with the package's timeout and idle-connection policy. */
  function DefaultClient(): (c: Client)
    ensures c.timeout == 5 * Second
    ensures c.transport.maxIdleConnsPerHost == 100
  {
    Client(RequestTimeout, Transport(DefaultMaxIdleConnsPerHost))
  }

  /**
    `NewSource`: the labels and endpoint are stored as given, with no URL check;
    credentials are empty; logger, counter and tracer are nil; the client is the
    default one and `SF` is bound to that very client and the endpoint.
   */
  function NewSource(name: string, tag: string, endpoint: string): (s: Source)
    ensures s.name == name && s.tag == tag && s.endpoint == endpoint
    ensures s.username == "" && s.password == ""
    ensures s.logger.None? && s.metrics.None? && s.tracing.None?
    ensures s.client.Some?
    ensures s.client.value.timeout == 5 * Second
    ensures s.client.value.transport.maxIdleConnsPerHost == 100
    ensures s.sf == DefaultRequest(s.client.value, endpoint)
  {
    var df := DefaultClient();
    Source(name, tag, endpoint, "", "", Some(df), None, None, None, DefaultRequest(df, endpoint))
  }

  /** `SetAuth`: stores the credentials and nothing else. */
  function SetAuth(s: Source, username: string, password: string): (r: Source)
    ensures r.username == username && r.password == password
    ensures r.(username := s.username, password := s.password) == s
  {
    s.(username := username, password := password)
  }

  /** The four `SourceOption` constructors of the package; each carries the value it installs. */
  datatype SourceOption =
    | SetLogger(l: Option<Logger>)
    | SetMetrics(m: Option<Counter>)
    | SetTracer(t: Option<Logger>)
    | SetClient(c: Option<Client>)

  /** Runs one option on a source: each option writes its own field and no other. */
  function ApplyOption(s: Source, op: SourceOption): (r: Source)
    ensures op.SetLogger? ==> r == s.(logger := op.l)
    ensures op.SetMetrics? ==> r == s.(metrics := op.m)
    ensures op.SetTracer? ==> r == s.(tracing := op.t)
    ensures op.SetClient? ==> r == s.(client := op.c)
    ensures r.sf == s.sf
  {
    match op
    case SetLogger(l) => s.(logger := l)
    case SetMetrics(m) => s.(metrics := m)
    case SetTracer(t) => s.(tracing := t)
    case SetClient(c) => s.(client := c)
  }

  /** `SetOptions`: runs the options from first to last. */
  function SetOptions(s: Source, ops: seq<SourceOption>): (r: Source)
    ensures ops == [] ==> r == s
    ensures r.name == s.name && r.tag == s.tag && r.endpoint == s.endpoint
    ensures r.username == s.username && r.password == s.password
    ensures r.sf == s.sf
    decreases |ops|
  {
    if |ops| == 0 then s else SetOptions(ApplyOption(s, ops[0]), ops[1..])
  }

  /**
    The value the last option in `ops` that `pick` recognises installs, or
    `init` when there is none: an independent statement of "a later option on
    the same field wins".
   */
  function LastSet<T>(ops: seq<SourceOption>, pick: SourceOption -> Option<T>, init: T): T {
    if |ops| == 0 then init
    else match pick(ops[|ops| - 1])
      case Some(v) => v
      case None => LastSet(ops[..|ops| - 1], pick, init)
  }

  function LoggerSet(op: SourceOption): Option<Option<Logger>> {
    if op.SetLogger? then Some(op.l) else None
  }

  function MetricsSet(op: SourceOption): Option<Option<Counter>> {
    if op.SetMetrics? then Some(op.m) else None
  }

  function TracerSet(op: SourceOption): Option<Option<Logger>> {
    if op.SetTracer? then Some(op.t) else None
  }

  function ClientSet(op: SourceOption): Option<Option<Client>> {
    if op.SetClient? then Some(op.c) else None
  }

  /** Running `a ++ [op]` is running `a`, then `op`. */
  lemma {:induction false} SetOptionsSnoc(s: Source, ops: seq<SourceOption>, op: SourceOption)
    ensures SetOptions(s, ops + [op]) == ApplyOption(SetOptions(s, ops), op)
    decreases |ops|
  {
    if |ops| > 0 {
      assert (ops + [op])[1..] == ops[1..] + [op];
      SetOptionsSnoc(ApplyOption(s, ops[0]), ops[1..], op);
    }
  }

  /** Running two option lists in one call is running them in two calls, in order. */
  lemma {:induction false} SetOptionsConcat(s: Source, a: seq<SourceOption>, b: seq<SourceOption>)
    ensures SetOptions(s, a + b) == SetOptions(SetOptions(s, a), b)
    decreases |a|
  {
    if |a| > 0 {
      assert (a + b)[1..] == a[1..] + b;
      SetOptionsConcat(ApplyOption(s, a[0]), a[1..], b);
    } else {
      assert a + b == b;
    }
  }

  /** Every configurable field ends up holding what the last option on that field installed. */
  lemma {:induction false} SetOptionsLastWins(s: Source, ops: seq<SourceOption>)
    ensures SetOptions(s, ops).logger == LastSet(ops, LoggerSet, s.logger)
    ensures SetOptions(s, ops).metrics == LastSet(ops, MetricsSet, s.metrics)
    ensures SetOptions(s, ops).tracing == LastSet(ops, TracerSet, s.tracing)
    ensures SetOptions(s, ops).client == LastSet(ops, ClientSet, s.client)
  {
    if |ops| > 0 {
      var init, last := ops[..|ops| - 1], ops[|ops| - 1];
      assert ops == init + [last];
      SetOptionsSnoc(s, init, last);
      SetOptionsLastWins(s, init);
    }
  }

  /** `context.WithTimeout(ctx, 5s)`: the earlier of the caller's deadline and now + 5s. */
  function Deadline(ctx: Context, now: int): (d: int)
    ensures d <= now + RequestTimeout
    ensures ctx.deadline.Some? ==> d <= ctx.deadline.value
    ensures d == now + RequestTimeout || ctx.deadline == Some(d)
  {
    match ctx.deadline
    case None => now + RequestTimeout
    case Some(parent) => if parent < now + RequestTimeout then parent else now + RequestTimeout
  }

  /**
    The default request function: a GET of the captured endpoint with the
    derived deadline, whatever the query. Only status 200 yields the body
    (with the reader's error, if any); the body is closed on that path only.
   */
  function DefaultSourceRequest(client: Client, endpoint: string, deadline: int,
                                q: Option<UrlValues>, ex: Exchange): (r: SFRun)
    ensures ex.RequestFailed? ==> r == SFRun(Reply(None, Some(ex.err)), [])
    ensures ex.DoFailed? ==> r.reply == Reply(None, Some(ex.err))
    ensures ex.Responded? && ex.status != StatusOK ==>
              r.reply == Reply(None, Some(InvalidStatus(ex.status)))
    ensures ex.Responded? && ex.status == StatusOK ==>
              r.reply == Reply(Some(ex.body), ex.readErr)
    ensures ex.RequestFailed? || (|r.effects| > 0 && r.effects[0] == Do(client, "GET", endpoint, deadline))
    ensures ex.DoFailed? || (ex.Responded? && ex.status != StatusOK) ==>
              r.effects == [Do(client, "GET", endpoint, deadline)]
    ensures ex.Responded? && ex.status == StatusOK ==>
              r.effects == [Do(client, "GET", endpoint, deadline), ReadBody, CloseBody]
    ensures ReadBody in r.effects <==> ex.Responded? && ex.status == StatusOK
    ensures CloseBody in r.effects <==> ex.Responded? && ex.status == StatusOK
  {
    match ex
    case RequestFailed(e) => SFRun(Reply(None, Some(e)), [])
    case DoFailed(e) => SFRun(Reply(None, Some(e)), [Do(client, "GET", endpoint, deadline)])
    case Responded(status, body, readErr) =>
      var sent := Do(client, "GET", endpoint, deadline);
      if status != StatusOK then SFRun(Reply(None, Some(InvalidStatus(status))), [sent])
      else SFRun(Reply(Some(body), readErr), [sent, ReadBody, CloseBody])
  }

  /** Calls a source's request function. */
  function RunSourceFunc(sf: SourceFunc, deadline: int, q: Option<UrlValues>, ex: Exchange): SFRun {
    match sf
    case DefaultRequest(client, endpoint) => DefaultSourceRequest(client, endpoint, deadline, q, ex)
  }

  /**
    `Get`: calls `SF` once with `q` under the derived deadline. A reply without
    error is passed through untouched. On an error the logger's `Debug` and then
    the counter's `Inc` are called, and the error comes back with nil data; a
    nil logger or counter makes that call panic.
   */
  function Get(s: Source, ctx: Context, now: int, q: Option<UrlValues>, sfReply: Reply): (r: GetResult)
    ensures |r.trace| >= 1 && r.trace[0] == CallSF(q, Deadline(ctx, now))
    ensures sfReply.err.None? ==> r.outcome == Returned(sfReply) && |r.trace| == 1
    ensures r.outcome.Panicked? <==> sfReply.err.Some? && (s.logger.None? || s.metrics.None?)
    ensures r.outcome.Returned? && sfReply.err.Some? ==>
              && r.outcome.reply == Reply(None, sfReply.err)
              && r.trace[1..] == [Debug(s.logger.value, FailedRequestMsg, sfReply.err.value, Deadline(ctx, now), q),
                                  Inc(s.metrics.value)]
  {
    var deadline := Deadline(ctx, now);
    var call := [CallSF(q, deadline)];
    match sfReply.err
    case None => GetResult(Returned(Reply(sfReply.data, None)), call)
    case Some(err) =>
      match s.logger
      case None => GetResult(Panicked, call)
      case Some(l) =>
        var logged := call + [Debug(l, FailedRequestMsg, err, deadline, q)];
        match s.metrics
        case None => GetResult(Panicked, logged)
        case Some(m) => GetResult(Returned(Reply(None, Some(err))), logged + [Inc(m)])
  }

  /** The exchange gave a 200 response whose body was read in full. */
  predicate Succeeded(ex: Exchange) {
    ex.Responded? && ex.status == StatusOK && ex.readErr.None?
  }

  /**
    The error an exchange that did not succeed ends in, stated independently of
    the request function: a build or transport error as is, the status error
    for a status other than 200, and the reader's error on 200.
   */
  function FailureOf(ex: Exchange): Error
    requires !Succeeded(ex)
  {
    match ex
    case RequestFailed(e) => e
    case DoFailed(e) => e
    case Responded(status, _, readErr) =>
      if status != StatusOK then InvalidStatus(status) else readErr.value
  }

  /**
    `Get` with the source's own request function run against the exchange `ex`:
    the request goes out through the captured client under the deadline `Get`
    derived; only a fully read 200 response yields data. Any other outcome is
    that exchange's own error, logged once and counted once before it comes
    back with nil data, or a panic exactly when the logger or the counter is nil.
   */
  function Fetch(s: Source, ctx: Context, now: int, q: Option<UrlValues>, ex: Exchange): (r: FetchResult)
    ensures |r.get.trace| >= 1 && r.get.trace[0] == CallSF(q, Deadline(ctx, now))
    ensures ex.RequestFailed? ==> r.exchange == []
    ensures !ex.RequestFailed? ==>
              |r.exchange| >= 1 && r.exchange[0] == Do(s.sf.client, "GET", s.sf.endpoint, Deadline(ctx, now))
    ensures Succeeded(ex) ==> r.get.outcome == Returned(Reply(Some(ex.body), None))
    ensures r.get.outcome.Panicked? <==> !Succeeded(ex) && (s.logger.None? || s.metrics.None?)
    ensures r.get.outcome.Returned? && !Succeeded(ex) ==>
              r.get.outcome.reply.data.None? && r.get.outcome.reply.err.Some?
    ensures r.get.outcome.Returned? && !Succeeded(ex) ==>
              && r.get.outcome.reply.err == Some(FailureOf(ex))
              && r.get.trace[1..] == [Debug(s.logger.value, FailedRequestMsg, FailureOf(ex), Deadline(ctx, now), q),
                                      Inc(s.metrics.value)]
    ensures !Succeeded(ex) && s.logger.Some? && s.metrics.Some? ==>
              Count(r.get.trace, Debugs) == 1 && Count(r.get.trace, Incs) == 1
    ensures Succeeded(ex) ==> Count(r.get.trace, Debugs) == 0 && Count(r.get.trace, Incs) == 0
  {
    var run := RunSourceFunc(s.sf, Deadline(ctx, now), q, ex);
    GetObservations(s, ctx, now, q, run.reply);
    FetchResult(run.effects, Get(s, ctx, now, q, run.reply))
  }

  // Counting observations in a trace

  /** The three calls `Get` itself makes, told apart for counting. */
  datatype Kind = SFCalls | Debugs | Incs

  predicate IsKind(e: Event, k: Kind) {
    match k
    case SFCalls => e.CallSF?
    case Debugs => e.Debug?
    case Incs => e.Inc?
  }

  /** How many calls of kind `k` the trace records. */
  function Count(t: seq<Event>, k: Kind): nat {
    if |t| == 0 then 0 else Count(t[..|t| - 1], k) + (if IsKind(t[|t| - 1], k) then 1 else 0)
  }

  lemma CountSnoc(t: seq<Event>, e: Event, k: Kind)
    ensures Count(t + [e], k) == Count(t, k) + (if IsKind(e, k) then 1 else 0)
  {
    assert (t + [e])[..|t|] == t;
  }

  lemma CountSnocAll(t: seq<Event>, e: Event)
    ensures Count(t + [e], SFCalls) == Count(t, SFCalls) + (if e.CallSF? then 1 else 0)
    ensures Count(t + [e], Debugs) == Count(t, Debugs) + (if e.Debug? then 1 else 0)
    ensures Count(t + [e], Incs) == Count(t, Incs) + (if e.Inc? then 1 else 0)
  {
    CountSnoc(t, e, SFCalls);
    CountSnoc(t, e, Debugs);
    CountSnoc(t, e, Incs);
  }

  /** The counts of the three traces `Get` can leave: the call alone, then `Debug`, then `Inc`. */
  lemma TraceShapeCounts(call: Event, dbg: Event, inc: Event)
    requires call.CallSF? && dbg.Debug? && inc.Inc?
    ensures Count([call], SFCalls) == 1 && Count([call], Debugs) == 0 && Count([call], Incs) == 0
    ensures Count([call, dbg], SFCalls) == 1 && Count([call, dbg], Debugs) == 1 && Count([call, dbg], Incs) == 0
    ensures Count([call, dbg, inc], SFCalls) == 1 && Count([call, dbg, inc], Debugs) == 1
    ensures Count([call, dbg, inc], Incs) == 1
  {
    CountSnocAll([], call);
    assert [] + [call] == [call];
    CountSnocAll([call], dbg);
    assert [call] + [dbg] == [call, dbg];
    CountSnocAll([call, dbg], inc);
    assert [call, dbg] + [inc] == [call, dbg, inc];
  }

  /**
    `Get` calls the request function exactly once; it calls `Debug` and `Inc`
    once each when the reply failed and both collaborators are set, and never
    when the reply succeeded.
   */
  lemma GetObservations(s: Source, ctx: Context, now: int, q: Option<UrlValues>, sfReply: Reply)
    ensures var t := Get(s, ctx, now, q, sfReply).trace;
      && Count(t, SFCalls) == 1
      && Count(t, Debugs) == (if sfReply.err.Some? && s.logger.Some? then 1 else 0)
      && Count(t, Incs) == (if sfReply.err.Some? && s.logger.Some? && s.metrics.Some? then 1 else 0)
  {
    var t := Get(s, ctx, now, q, sfReply).trace;
    var d := Deadline(ctx, now);
    var call := CallSF(q, d);
    var err := if sfReply.err.Some? then sfReply.err.value else Failure("");
    var dbg := Debug(if s.logger.Some? then s.logger.value else Logger(0), FailedRequestMsg, err, d, q);
    var inc := Inc(if s.metrics.Some? then s.metrics.value else Counter(0));
    TraceShapeCounts(call, dbg, inc);
    if sfReply.err.None? || s.logger.None? {
      assert t == [call];
    } else if s.metrics.None? {
      assert t == [call, dbg];
    } else {
      assert t == [call, dbg, inc];
    }
  }

  /** The deadline the request runs under never exceeds the caller's, nor now + 5s. */
  lemma FetchDeadlineBounded(s: Source, ctx: Context, now: int, q: Option<UrlValues>, ex: Exchange)
    requires !ex.RequestFailed?
    ensures var f := Fetch(s, ctx, now, q, ex);
      && f.exchange[0].Do?
      && f.exchange[0].deadline == f.get.trace[0].deadline
      && f.exchange[0].deadline <= now + RequestTimeout
      && (ctx.deadline.Some? ==> f.exchange[0].deadline <= ctx.deadline.value)
  {
  }

  /** The query is handed to `SF`, and the default request function ignores it. */
  lemma FetchIgnoresQuery(s: Source, ctx: Context, now: int, q1: Option<UrlValues>, q2: Option<UrlValues>, ex: Exchange)
    ensures Fetch(s, ctx, now, q1, ex).exchange == Fetch(s, ctx, now, q2, ex).exchange
    ensures Fetch(s, ctx, now, q1, ex).get.outcome == Fetch(s, ctx, now, q2, ex).get.outcome
  {
  }

  /**
    The credentials `SetAuth` stores are never used: a source with them
    fetches exactly as one without them.
   */
  lemma SetAuthUnused(s: Source, username: string, password: string,
                      ctx: Context, now: int, q: Option<UrlValues>, ex: Exchange)
    ensures Fetch(SetAuth(s, username, password), ctx, now, q, ex) == Fetch(s, ctx, now, q, ex)
  {
  }

  /**
    `SetClient` changes the `Client` field but not `SF`: requests still go out
    through the client captured at construction.
   */
  lemma SetClientDoesNotRebind(name: string, tag: string, endpoint: string,
                                ops: seq<SourceOption>, ctx: Context, now: int,
                                q: Option<UrlValues>, ex: Exchange)
    requires !ex.RequestFailed?
    ensures var s := SetOptions(NewSource(name, tag, endpoint), ops);
      Fetch(s, ctx, now, q, ex).exchange[0].client == DefaultClient()
  {
  }

  /**
    A fresh source has no logger: the first failed request panics, after
    calling the request function and nothing else.
   */
  lemma NewSourceFailurePanics(name: string, tag: string, endpoint: string,
                               ctx: Context, now: int, q: Option<UrlValues>, sfReply: Reply)
    requires sfReply.err.Some?
    ensures Get(NewSource(name, tag, endpoint), ctx, now, q, sfReply) ==
            GetResult(Panicked, [CallSF(q, Deadline(ctx, now))])
  {
  }

  /**
    A non-200 status on a configured source: the caller gets the status error,
    whose text names the status, after one `Debug` and one `Inc`, and the body
    is neither read nor closed.
   */
  lemma FetchBadStatus(s: Source, ctx: Context, now: int, q: Option<UrlValues>,
                       status: int, body: Bytes, readErr: Option<Error>)
    requires s.logger.Some? && s.metrics.Some?
    requires status != StatusOK
    ensures var f := Fetch(s, ctx, now, q, Responded(status, body, readErr));
      && f.get.outcome == Returned(Reply(None, Some(InvalidStatus(status))))
      && Message(f.get.outcome.reply.err.value) == InvalidRequestPrefix + Decimal.FormatInt(status)
      && ReadBody !in f.exchange && CloseBody !in f.exchange
      && Count(f.get.trace, Debugs) == 1 && Count(f.get.trace, Incs) == 1
  {
    var f := Fetch(s, ctx, now, q, Responded(status, body, readErr));
    GetObservations(s, ctx, now, q, RunSourceFunc(s.sf, Deadline(ctx, now), q, Responded(status, body, readErr)).reply);
    MessageIsFormat(status);
  }

  /** The status error's text is exactly `Invalid request ` and the `%d` rendering of the status. */
  lemma MessageIsFormat(status: int)
    ensures Message(InvalidStatus(status)) == InvalidRequestPrefix + Decimal.FormatInt(status)
  {
    var m := Message(InvalidStatus(status));
    var suffix := m[|InvalidRequestPrefix|..];
    Decimal.CanonicalIsFormat(suffix);
    assert m == m[..|InvalidRequestPrefix|] + suffix;
  }

  /**
    Status 200: the body bytes come back untouched, with no logging and no
    counting, and the body is read and then closed.
   */
  lemma FetchOk(s: Source, ctx: Context, now: int, q: Option<UrlValues>, body: Bytes)
    ensures var f := Fetch(s, ctx, now, q, Responded(StatusOK, body, None));
      && f.get.outcome == Returned(Reply(Some(body), None))
      && f.get.trace == [CallSF(q, Deadline(ctx, now))]
      && f.exchange[1..] == [ReadBody, CloseBody]
  {
  }
}

=== FILE: wrappers.dfy ===
/** The optional-value datatype used for Go's nil pointers, nil interfaces and nil slices. */
module Wrappers {

  /** `None` stands for Go's `nil`; `Some(v)` for a non-nil value `v`. */
  datatype Option<+T> = None | Some(value: T)
}
